=== FILE: README.md ===
# Soak test: damage reconciliation and knockdown

This project is a Dafny model of the soak flow of the Shadowrun 5th edition
system for Foundry VTT (`SoakFlow` in `src/module/actor/SoakFlow.ts`). In a soak
test the defender rolls to reduce incoming damage. The model covers three parts:

- **Reconciliation** (`updateDamageWithUserData`). The operator confirms the damage
  amount, damage type, armour penetration (AP) and element. Amount and AP are never
  overwritten. Each gets one correction part keyed `SR5.UserInput`, equal to the
  confirmed value minus the current total. The type is overwritten only when it
  differs from the initial base type. The element is overwritten only when a
  non-empty one was given.
- **Knockdown** (`knocksDown`, `isDamageFromGelRounds`, `isDamageFromImpactDispersion`).
  The soaked damage knocks the defender down when it exceeds the physical limit or is
  at least 10 (Shadowrun 5th edition core rulebook p. 194). Gel rounds lower the
  limit by 2 (p. 434). Gel rounds are found by following the damage source: the
  attacker by id, then the item by id, then its equipped modifications. A broken link
  gives "no gel rounds". Impact dispersion never applies.
- **Orchestration** (`runSoakTest`, `promptDamageData`). A cancelled dialog or an
  aborted roll ends the flow with no result and nothing published. The preview list
  shown in the dialog and the final list used for the roll are both built from the
  caller's parts. Only a completed roll is published.

Modules: `Wrappers` (Option), `PartsList` (modifier lists), `Damage` (the damage
record), `World` (actors, items, modifications, `find`), `Reconcile` and
`ReconcileFacts`, `Knockdown` and `KnockdownFacts`, `SoakFlow` and `SoakFlowFacts`.

Two helpers are not shown, so they are modelled from ASSUMED behaviour, not verified:

- `Helpers.calcTotal(x)` is `x.base` plus the sum of the values in `x.mod`
  (`Damage.CalcTotal`).
- `PartsList.AddUniquePart` replaces the first part with the same name in place, and
  appends a new part when there is none (`PartsList.AddUniquePart`).

Under these assumptions, reconciliation reaches the confirmed total only when no
`SR5.UserInput` part existed beforehand. If one existed with value u, the upsert
replaces it. The new total is then the confirmed value minus u. A second
reconciliation with the same answer restores the original total, so the two totals
alternate. `ReconcileFacts.ReconcileOscillates` and
`ReconcileFacts.PriorCorrectionExample` state this. The orchestration keeps the code
as written.

Modelling choices:

- The source's record keeps the damage amount's `base`, `value` and `mod` at top
  level. Here they are grouped into the field `amount`, which has the same
  `ModifiableValue` shape as `ap`.
- JavaScript truthiness of `actorId`, `itemId` and `element` is modelled as "non-empty
  string". An undefined id is represented by the empty string.
- The record is an immutable value. The source's `duplicate` calls, which protect the
  caller's record and parts from mutation, therefore hold by construction.

## Model

| member | source | states |
|---|---|---|
| PartsList.AddUniquePart | src/module/actor/SoakFlow.ts:121 | Assumed upsert. Afterwards the name maps to the new value and every other name keeps its value. If the name was absent, the part is appended and the total grows by the value. Otherwise the first part with that name is replaced in place, every other part stays where it was, and the total changes by (new − old). Unique names stay unique. |
| PartsList.UpsertLastWriteWins | src/module/actor/SoakFlow.ts:134 | Upserting one name twice equals upserting only the later value. The earlier correction leaves no trace. |
| PartsList.UpsertTotal | src/module/actor/SoakFlow.ts:134 | With unique names, the total after an upsert is the sum of the other parts plus the upserted value, counted once. |
| Damage.DefaultDamageData | src/module/actor/SoakFlow.ts:25 | The assumed default record has amount and AP of base 0, value 0 and no parts (so both total 0 and agree with their breakdown), physical type as base and value, an empty element, and no source. |
| Damage.CalcTotal | src/module/actor/SoakFlow.ts:118 | Assumed total of a modifiable value, as used at lines 118, 122, 131 and 135. With no parts it is the base. With unique part names, every part is counted exactly once: for any name, the total is the base plus that name's part (if any) plus all other parts. |
| Reconcile.ReconcileValue | src/module/actor/SoakFlow.ts:118-123 | If the total already equals the confirmed value, nothing changes, not even a stale `value` (assuming the total helper does not write `value`). Otherwise the `SR5.UserInput` part holds confirmed − total, `value` agrees with the breakdown, and other parts are kept. With no earlier correction part, exactly that one part is appended at the end and the total becomes the confirmed value. With an earlier part u, that first correction part is replaced in place, every other part stays where it was, and the total becomes confirmed − u. |
| Reconcile.UpdateDamageWithUserData | src/module/actor/SoakFlow.ts:114-143 | Amount and AP are each reconciled by the diff rule in their own lists. The type is overwritten (base and value) exactly when the confirmed type differs from the initial base type; otherwise it is unchanged even if value ≠ base. The element value is overwritten exactly when the given element is non-empty. The source is kept. |
| ReconcileFacts.UpdateIdempotent | src/module/actor/SoakFlow.ts:118-123 | With no earlier correction parts, reconciling the result again with the same answer returns it unchanged. |
| ReconcileFacts.UpdateReachesConfirmed | src/module/actor/SoakFlow.ts:118-136 | A consistent record without correction parts ends consistent, with amount and AP equal to the confirmed values. |
| ReconcileFacts.AmountAndApIndependent | src/module/actor/SoakFlow.ts:118-136 | The reconciled amount does not depend on the confirmed AP, type or element. The reconciled AP does not depend on the confirmed amount, type or element. |
| ReconcileFacts.ReconcileOscillates | src/module/actor/SoakFlow.ts:119-122 | With an earlier correction part u ≠ 0 and a total that differs from the confirmed value, one reconciliation misses the confirmed total. A second one restores the original total. |
| ReconcileFacts.DiffExample | src/module/actor/SoakFlow.ts:119-122 | A total of 5 confirmed at 8 gains exactly one correction part of 3 and shows 8. |
| ReconcileFacts.PriorCorrectionExample | src/module/actor/SoakFlow.ts:121 | Base 5 with a correction part of 2, confirmed at 8, ends with a correction part of 1 and shows 6. |
| World.Find | src/module/actor/SoakFlow.ts:80 | `find` returns nothing exactly when no element matches. Otherwise it returns the first matching element. |
| Knockdown.SourceItem | src/module/actor/SoakFlow.ts:79-83 | The lookup gives no item when the source is missing, either id is empty, or no actor has the attacker's id. A found item is the first item with the item id owned by the first actor with the attacker id. Whenever both ids are given and that actor and item exist, exactly that item is found. |
| Knockdown.CountGelRoundsMods | src/module/actor/SoakFlow.ts:84-86 | The filtered list is at most as long as the modifications, and it is non-empty exactly when some modification is equipped and named as gel rounds. |
| Knockdown.IsDamageFromGelRounds | src/module/actor/SoakFlow.ts:78-91 | False when there is no source or the lookup chain finds no item. When an item is found, true exactly when some modification of it is equipped and named as gel rounds. |
| Knockdown.IsDamageFromImpactDispersion | src/module/actor/SoakFlow.ts:93-96 | Impact dispersion never applies, for every damage record. |
| KnockdownFacts.GelRoundsMatchesReference | src/module/actor/SoakFlow.ts:78-91 | The gel rounds check holds exactly when both ids are given, and the first actor with the attacker id has, as its first item with the item id, an item with an equipped gel rounds modification. It is false when any link is missing. |
| Knockdown.EffectiveLimit | src/module/actor/SoakFlow.ts:70-73 | The effective limit is the physical limit, minus 2 when the damage came from gel rounds. Impact dispersion never changes it. |
| Knockdown.KnocksDown | src/module/actor/SoakFlow.ts:68-76 | Knockdown holds exactly when the damage value reaches min(10, effective limit + 1). This is the same as exceeding the effective limit or being at least 10. |
| KnockdownFacts.KnocksDownMonotone | src/module/actor/SoakFlow.ts:75 | Raising the damage value never undoes a knockdown. |
| KnockdownFacts.KnocksDownAtCeiling | src/module/actor/SoakFlow.ts:75 | A damage value of 10 or more always knocks down. |
| KnockdownFacts.KnocksDownBelowCeiling | src/module/actor/SoakFlow.ts:70-75 | Below 10, knockdown holds exactly when the value exceeds the physical limit minus 2 when gel rounds were used (per the reference statement), or minus nothing otherwise. |
| KnockdownFacts.BoundaryWithoutGelRounds | src/module/actor/SoakFlow.ts:72-75 | With physical limit 8 and no source, 9 knocks down, 8 does not, and 10 does. |
| KnockdownFacts.BoundaryWithGelRounds | src/module/actor/SoakFlow.ts:70-75 | With the same defender hit by an item with equipped gel rounds, 7 knocks down and 6 does not. |
| SoakFlow.InitialDamage | src/module/actor/SoakFlow.ts:107-109 | Uses the caller's damage when given. Otherwise every field is the default record's: zero amount and AP with no parts, physical type as base and value (the type compared at line 125), an empty element, and no source. |
| SoakFlow.PromptDamageData | src/module/actor/SoakFlow.ts:98-112 | Returns no damage exactly when the dialog was cancelled. Otherwise it returns the initial damage reconciled against the whole answer: amount and AP by the diff rule, the confirmed type when it differs from the initial base type, the confirmed element when it is non-empty, and the source kept. |
| SoakFlow.RunSoakTest | src/module/actor/SoakFlow.ts:24-66 | The preview comes from the caller's parts and the initial damage. The flow ends Canceled exactly when the dialog was cancelled. It publishes, and returns the hits, exactly when the dialog was answered and the roll completed. The final list comes from the caller's parts and the reconciled damage. The message carries the reconciled damage, the damage after the type change and the reduction by hits, and a knockdown flag equal to the knockdown rule for that damage. |
| SoakFlowFacts.PhasesStartFromCallerParts | src/module/actor/SoakFlow.ts:26-37 | When the soak rules only append parts, the preview is the caller's parts plus the rule parts for the initial damage. The final list is the caller's parts plus the rule parts for the reconciled damage, so no preview part leaks into the roll. |

## Left out

- Dice rolling (`ShadowrunRoller.advancedRoll`): probabilities and roll UI are outside the model. The roll is an `Option<int>` of net hits, and `None` means aborted. The final parts list is recorded in the outcome rather than passed to a roller.
- The soak dialog (`ShadowrunActorDialogs.createSoakDialog`, `select`, `canceled`): interactive UI. It is an `Option<UserInput>`, and `None` means cancelled.
- `createRollChatMessage`: publishing is I/O. It is the `Published` outcome carrying the message contents.
- `game.i18n.localize`: localisation. The gel rounds name and the soak test title are constant strings.
- `game.actors`: global state. It is an explicit registry (a sequence of actors with their items and modifications). The defender's `getLimit('physical')` is the actor's `physicalLimit` field.
- `SoakRules.applyAllSoakParts`, `modifyDamageType`, `reduceDamage`: not part of this model. They are function-valued parameters (`SoakRules`) with no assumed behaviour.
- `DefaultValues.damageData`: not shown; modelled from the assumed semantics (`Damage.DefaultDamageData`). It is assumed to be zero physical damage with no modifiers, no element and no source.
- `Helpers.calcTotal`, `PartsList.AddUniquePart`: their source is not shown. They are modelled from the assumed semantics stated above (`Damage.CalcTotal`, `PartsList.AddUniquePart`).
- Argument mutation by unseen helpers: `Helpers.calcTotal`, `SoakRules.applyAllSoakParts`, `SoakRules.modifyDamageType` and `SoakRules.reduceDamage` are assumed not to change the objects passed to them. In particular, `calcTotal` is assumed not to write `value`, so a stale `value` survives when the totals already match. The caller's `soakRollOptions.damage`, shared by the preview at line 27 and the dialog step at line 107, and the `incoming` record published at line 57, are assumed to stay as they were.
- Numbers: JavaScript doubles are modelled as unbounded integers. Fractions, NaN and rounding are not modelled.
- `async`/`await`: suspension is only sequencing here, so the flow is a single function over its inputs.
- Called-shot knockdown (Shadowrun 5th edition core rulebook p. 195): the source has only a to-do note for it, so it is not modelled.
- The triggering `event` forwarded to the roller, and the roll options `extended`, `wounds` and `hideRollMessage`: these only matter for display, so they are not modelled.

=== FILE: damage.dfy ===
/** The damage record a soak test works on. The source's record keeps the
    damage amount's `base`, `value` and `mod` at top level beside `type`,
    `element`, `ap` and `source`; here the amount is grouped into `amount`,
    which has the same shape as `ap`, so that both are reconciled by one
    definition. */
module Damage {
  import opened Wrappers
  import opened PartsList

  datatype DamageType = Physical | Stun | Matrix | Untyped

  /** A number with a base and named modifiers; `value` is the displayed total. */
  datatype ModifiableValue = ModifiableValue(base: int, value: int, mod: ModList)

  datatype TypeField = TypeField(base: DamageType, value: DamageType)

  /** The element tag; the empty string means "no element". */
  datatype ElementField = ElementField(base: string, value: string)

  /** Weak reference to the attacker and the item that caused the damage,
      by id; an empty id stands for a missing (undefined or empty) one. */
  datatype DamageSource = DamageSource(actorId: string, itemId: string)

  datatype DamageData = DamageData(
    amount: ModifiableValue,
    damageType: TypeField,
    element: ElementField,
    ap: ModifiableValue,
    source: Option<DamageSource>)

  /** The total of a modifiable value. The helper computing it is not shown;
      it is modelled as ASSUMED to be the base plus the sum of the modifiers. */
  function CalcTotal(m: ModifiableValue): (total: int)
    ensures m.mod == [] ==> total == m.base
    // With unique part names, every part is counted exactly once.
    ensures UniqueKeys(m.mod) ==>
      forall n :: total == m.base + TotalExcept(m.mod, n) + Lookup(m.mod, n).ValueOr(0)
  {
    TotalSplitsEverywhere(m.mod);
    m.base + Total(m.mod)
  }

  /** The displayed value agrees with its modifier breakdown. */
  predicate Consistent(m: ModifiableValue) {
    m.value == CalcTotal(m)
  }

  /** The default record used when no incoming damage is known. Its definition
      is not shown; it is modelled as ASSUMED to be zero physical damage with
      no modifiers, no element and no source. */
  function DefaultDamageData(): (d: DamageData)
    ensures d.amount == ModifiableValue(0, 0, []) && d.ap == ModifiableValue(0, 0, [])
    ensures d.damageType == TypeField(Physical, Physical) && d.element == ElementField("", "")
    ensures d.source.None?
  {
    DamageData(
      ModifiableValue(0, 0, []),
      TypeField(Physical, Physical),
      ElementField("", ""),
      ModifiableValue(0, 0, []),
      None)
  }
}

=== FILE: knockdown.dfy ===
/** The knockdown rule applied to the damage left after a soak test
    (SoakFlow.knocksDown and its two helpers). Shadowrun 5th edition core
    rulebook p. 194: a character is knocked down when the damage exceeds the
    physical limit or is 10 or more; p. 434: gel rounds lower that limit by 2. */
module Knockdown {
  import opened Wrappers
  import opened Damage
  import opened World

  /** The localized name of the gel rounds ammunition modification. */
  const GelRoundsLabel: string := "Gel Rounds"

  /** Change to the physical limit when the damage came from gel rounds. */
  const GelRoundsEffect: int := -2

  /** Change to the physical limit for impact dispersion; that rule never
      applies yet, since ammunition cannot carry modifications. */
  const ImpactDispersionEffect: int := -2

  /** Damage at or above this knocks down whatever the limit. */
  const KnockdownCeiling: int := 10

  predicate IsGelRoundsMod(m: ItemMod) {
    m.equipped && m.name == GelRoundsLabel
  }

  /** Number of equipped gel rounds modifications (the two filters of the
      source, then the length of what is left). */
  function CountGelRoundsMods(mods: seq<ItemMod>): (n: nat)
    ensures n <= |mods|
    ensures n > 0 <==> exists k :: 0 <= k < |mods| && IsGelRoundsMod(mods[k])
  {
    if |mods| == 0 then 0
    else (if IsGelRoundsMod(mods[0]) then 1 else 0) + CountGelRoundsMods(mods[1..])
  }

  /** `i` is the first index of an actor with id `id`. */
  predicate FirstActorWithId(registry: Registry, id: string, i: int) {
    0 <= i < |registry| && registry[i].id == id && forall j :: 0 <= j < i ==> registry[j].id != id
  }

  /** `j` is the first index of an item with id `id`. */
  predicate FirstItemWithId(items: seq<Item>, id: string, j: int) {
    0 <= j < |items| && items[j].id == id && forall k :: 0 <= k < j ==> items[k].id != id
  }

  /** The item the damage came from, following the weak reference: attacker
      by id in the registry, then the item by id among the attacker's items.
      Any missing link gives None. */
  function SourceItem(damage: DamageData, registry: Registry): (r: Option<Item>)
    ensures damage.source.None? ==> r.None?
    ensures damage.source.Some? && (damage.source.value.actorId == "" || damage.source.value.itemId == "") ==> r.None?
    ensures damage.source.Some? && (forall i :: 0 <= i < |registry| ==> registry[i].id != damage.source.value.actorId) ==> r.None?
    ensures r.Some? ==> r.value.id == damage.source.value.itemId
    // A found item is the first item with the item id of the first actor
    // with the attacker id ...
    ensures r.Some? ==> exists i, j ::
      && FirstActorWithId(registry, damage.source.value.actorId, i)
      && FirstItemWithId(registry[i].items, damage.source.value.itemId, j)
      && r.value == registry[i].items[j]
    // ... and a complete chain is always found.
    ensures forall i, j ::
      damage.source.Some? && damage.source.value.actorId != "" && damage.source.value.itemId != ""
      && FirstActorWithId(registry, damage.source.value.actorId, i)
      && FirstItemWithId(registry[i].items, damage.source.value.itemId, j)
      ==> r == Some(registry[i].items[j])
  {
    match damage.source
    case None => None
    case Some(source) =>
      if source.actorId != "" && source.itemId != "" then
        match Find(registry, (a: Actor) => a.id == source.actorId)
        case None => None
        case Some(attacker) => Find(attacker.items, (it: Item) => it.id == source.itemId)
      else None
  }

  /** Whether the damage was dealt with an item that has gel rounds equipped;
      false whenever the lookup chain breaks. */
  predicate IsDamageFromGelRounds(damage: DamageData, registry: Registry)
    ensures SourceItem(damage, registry).None? ==> !IsDamageFromGelRounds(damage, registry)
    ensures damage.source.None? ==> !IsDamageFromGelRounds(damage, registry)
    ensures SourceItem(damage, registry).Some? ==>
      (IsDamageFromGelRounds(damage, registry) <==>
        exists k :: 0 <= k < |SourceItem(damage, registry).value.mods| && IsGelRoundsMod(SourceItem(damage, registry).value.mods[k]))
  {
    match SourceItem(damage, registry)
    case None => false
    case Some(item) => CountGelRoundsMods(item.mods) > 0
  }

  /** Impact dispersion is not implemented: it never applies. */
  predicate IsDamageFromImpactDispersion(damage: DamageData)
    ensures !IsDamageFromImpactDispersion(damage)
  {
    false
  }

  /** The defender's physical limit after the ammunition effects. */
  function EffectiveLimit(damage: DamageData, defender: Actor, registry: Registry): (limit: int)
    // Impact dispersion contributes nothing; gel rounds lower the limit by 2.
    ensures limit == defender.physicalLimit + (if IsDamageFromGelRounds(damage, registry) then -2 else 0)
  {
    defender.physicalLimit
      + (if IsDamageFromGelRounds(damage, registry) then GelRoundsEffect else 0)
      + (if IsDamageFromImpactDispersion(damage) then ImpactDispersionEffect else 0)
  }

  /** The smallest damage value that knocks the defender down. */
  function KnockdownThreshold(limit: int): (t: int)
    ensures t <= KnockdownCeiling
  {
    if limit + 1 < KnockdownCeiling then limit + 1 else KnockdownCeiling
  }

  /** Whether the (soaked) damage knocks the defender down. */
  predicate KnocksDown(damage: DamageData, defender: Actor, registry: Registry)
    ensures KnocksDown(damage, defender, registry) <==>
      damage.amount.value >= KnockdownThreshold(EffectiveLimit(damage, defender, registry))
  {
    var effectiveLimit := EffectiveLimit(damage, defender, registry);
    damage.amount.value > effectiveLimit || damage.amount.value >= KnockdownCeiling
  }
}

/** Properties of the knockdown rule. */
module KnockdownFacts {
  import opened Wrappers
  import opened Damage
  import opened World
  import opened Knockdown

  /** Reference statement of the gel rounds rule: both ids are given, the
      first actor with the attacker's id owns, as its first item with the
      item's id, an item carrying an equipped gel rounds modification. */
  ghost predicate GelRoundsSourced(damage: DamageData, registry: Registry) {
    && damage.source.Some?
    && damage.source.value.actorId != ""
    && damage.source.value.itemId != ""
    && exists i, j, k ::
      && FirstActorWithId(registry, damage.source.value.actorId, i)
      && FirstItemWithId(registry[i].items, damage.source.value.itemId, j)
      && 0 <= k < |registry[i].items[j].mods|
      && IsGelRoundsMod(registry[i].items[j].mods[k])
  }

  /** The lookup chain of the source decides the gel rounds rule exactly as
      the reference statement does. */
  lemma GelRoundsMatchesReference(damage: DamageData, registry: Registry)
    ensures IsDamageFromGelRounds(damage, registry) <==> GelRoundsSourced(damage, registry)
  {
  }

  /** More damage never undoes a knockdown. */
  lemma KnocksDownMonotone(damage: DamageData, defender: Actor, registry: Registry, more: int)
    requires damage.amount.value <= more
    requires KnocksDown(damage, defender, registry)
    ensures KnocksDown(damage.(amount := damage.amount.(value := more)), defender, registry)
  {
  }

  /** Damage of 10 or more always knocks down, whatever the limit. */
  lemma KnocksDownAtCeiling(damage: DamageData, defender: Actor, registry: Registry)
    requires damage.amount.value >= KnockdownCeiling
    ensures KnocksDown(damage, defender, registry)
  {
  }

  /** Damage below 10 knocks down only when it exceeds the physical limit
      less the gel rounds penalty. */
  lemma KnocksDownBelowCeiling(damage: DamageData, defender: Actor, registry: Registry)
    requires damage.amount.value < KnockdownCeiling
    ensures KnocksDown(damage, defender, registry) <==>
      damage.amount.value > defender.physicalLimit - (if GelRoundsSourced(damage, registry) then 2 else 0)
  {
  }

  /** A record with the given damage value from the given source. */
  function DamageOf(value: int, source: Option<DamageSource>): DamageData {
    DamageData(ModifiableValue(value, value, []), TypeField(Physical, Physical), ElementField("", ""),
               ModifiableValue(0, 0, []), source)
  }

  /** Physical limit 8 and no gel rounds: 9 knocks down, 8 does not, 10 does. */
  lemma BoundaryWithoutGelRounds()
    ensures var defender := Actor("defender", 8, []);
      && KnocksDown(DamageOf(9, None), defender, [])
      && !KnocksDown(DamageOf(8, None), defender, [])
      && KnocksDown(DamageOf(10, None), defender, [])
  {
  }

  /** The same defender hit with an item carrying equipped gel rounds: the
      boundary moves down by 2, so 7 knocks down and 6 does not. */
  lemma BoundaryWithGelRounds()
    ensures var defender := Actor("defender", 8, []);
      var gun := Item("gun", [ItemMod(GelRoundsLabel, true)]);
      var registry := [defender, Actor("attacker", 4, [gun])];
      var source := Some(DamageSource("attacker", "gun"));
      && KnocksDown(DamageOf(7, source), defender, registry)
      && !KnocksDown(DamageOf(6, source), defender, registry)
  {
    var defender := Actor("defender", 8, []);
    var gun := Item("gun", [ItemMod(GelRoundsLabel, true)]);
    var registry := [defender, Actor("attacker", 4, [gun])];
    var source := Some(DamageSource("attacker", "gun"));
    assert GelRoundsSourced(DamageOf(7, source), registry) by {
      assert "defender"[0] != "attacker"[0];
      assert FirstActorWithId(registry, "attacker", 1);
      assert FirstItemWithId(registry[1].items, "gun", 0);
      assert IsGelRoundsMod(registry[1].items[0].mods[0]);
    }
    GelRoundsMatchesReference(DamageOf(7, source), registry);
    GelRoundsMatchesReference(DamageOf(6, source), registry);
  }
}

=== FILE: parts_list.dfy ===
/** The modifier list ("parts") of a modifiable value: an ordered sequence of
    named numeric contributions whose total is the sum of their values.

    The helper that upserts one named part is not shown; it is modelled from
    ASSUMED behaviour: the first entry with the same name is replaced
    in place, otherwise a new entry is appended at the end. */
module PartsList {
  import opened Wrappers

  datatype Part = Part(name: string, value: int)

  type ModList = seq<Part>

  /** Sum of all part values; the empty list totals 0. */
  function Total(list: ModList): int {
    if |list| == 0 then 0 else list[0].value + Total(list[1..])
  }

  /** The value of the first part called `name`, if any. */
  function Lookup(list: ModList, name: string): Option<int> {
    if |list| == 0 then None
    else if list[0].name == name then Some(list[0].value)
    else Lookup(list[1..], name)
  }

  /** The index of the first part called `name`, or `|list|` when there is none. */
  function FirstIndex(list: ModList, name: string): (i: nat)
    ensures i <= |list|
    ensures i < |list| <==> Lookup(list, name).Some?
    ensures i < |list| ==> list[i].name == name && Lookup(list, name) == Some(list[i].value)
    ensures forall j :: 0 <= j < i ==> list[j].name != name
  {
    if |list| == 0 || list[0].name == name then 0 else 1 + FirstIndex(list[1..], name)
  }

  /** The set of part names. */
  function Names(list: ModList): set<string> {
    if |list| == 0 then {} else {list[0].name} + Names(list[1..])
  }

  /** True when no two parts share a name. */
  predicate UniqueKeys(list: ModList) {
    |list| == 0 || (list[0].name !in Names(list[1..]) && UniqueKeys(list[1..]))
  }

  /** Sum of the values of the parts NOT called `name`. */
  function TotalExcept(list: ModList, name: string): int {
    if |list| == 0 then 0
    else (if list[0].name == name then 0 else list[0].value) + TotalExcept(list[1..], name)
  }

  /** Assumed upsert: replaces the first part called `name`, or appends one. */
  function AddUniquePart(list: ModList, name: string, value: int): (r: ModList)
    ensures Lookup(r, name) == Some(value)
    ensures forall n :: n != name ==> Lookup(r, n) == Lookup(list, n)
    ensures Lookup(list, name).None? ==> r == list + [Part(name, value)]
    ensures Lookup(list, name).Some? ==> |r| == |list|
    // An existing part is replaced in place: only the first part with the
    // name changes, and the order of all parts is kept.
    ensures Lookup(list, name).Some? ==> r[FirstIndex(list, name)] == Part(name, value)
    ensures Lookup(list, name).Some? ==>
      forall j :: 0 <= j < |list| && j != FirstIndex(list, name) ==> r[j] == list[j]
    ensures Lookup(list, name).Some? ==> Total(r) == Total(list) - Lookup(list, name).value + value
    ensures Lookup(list, name).None? ==> Total(r) == Total(list) + value
    ensures Names(r) == Names(list) + {name}
    ensures UniqueKeys(list) ==> UniqueKeys(r)
  {
    if |list| == 0 then [Part(name, value)]
    else if list[0].name == name then [Part(name, value)] + list[1..]
    else [list[0]] + AddUniquePart(list[1..], name, value)
  }

  /** A name has an entry exactly when it is among the part names. */
  lemma {:induction false} LookupFindsNames(list: ModList, name: string)
    ensures Lookup(list, name).Some? <==> name in Names(list)
  {
    if |list| > 0 {
      LookupFindsNames(list[1..], name);
    }
  }

  /** With unique names, the total is the part called `name` (if any) plus
      all the others. */
  lemma {:induction false} TotalSplits(list: ModList, name: string)
    requires UniqueKeys(list)
    ensures Total(list) == TotalExcept(list, name) + Lookup(list, name).ValueOr(0)
  {
    if |list| > 0 {
      TotalSplits(list[1..], name);
      if list[0].name == name {
        LookupFindsNames(list[1..], name);
        TotalExceptWithout(list[1..], name);
      }
    }
  }

  /** `TotalSplits` for every name at once. */
  lemma TotalSplitsEverywhere(list: ModList)
    ensures UniqueKeys(list) ==>
      forall name :: Total(list) == TotalExcept(list, name) + Lookup(list, name).ValueOr(0)
  {
    if UniqueKeys(list) {
      forall name
        ensures Total(list) == TotalExcept(list, name) + Lookup(list, name).ValueOr(0)
      {
        TotalSplits(list, name);
      }
    }
  }

  /** Removing a name that is absent removes nothing. */
  lemma {:induction false} TotalExceptWithout(list: ModList, name: string)
    requires name !in Names(list)
    ensures TotalExcept(list, name) == Total(list)
  {
    if |list| > 0 {
      TotalExceptWithout(list[1..], name);
    }
  }

  /** Upserting the same name twice is the same as upserting only the later
      value: the earlier value leaves no trace. */
  lemma {:induction false} UpsertLastWriteWins(list: ModList, name: string, first: int, second: int)
    ensures AddUniquePart(AddUniquePart(list, name, first), name, second) == AddUniquePart(list, name, second)
  {
    if |list| > 0 && list[0].name != name {
      UpsertLastWriteWins(list[1..], name, first, second);
    }
  }

  /** With unique names, the total after an upsert counts the upserted value
      once and every other part unchanged. */
  lemma UpsertTotal(list: ModList, name: string, value: int)
    requires UniqueKeys(list)
    ensures Total(AddUniquePart(list, name, value)) == TotalExcept(list, name) + value
  {
    TotalSplits(list, name);
  }
}

=== FILE: reconcile.dfy ===
/** Merging the operator's confirmed totals into a damage record
    (SoakFlow.updateDamageWithUserData). Amount and AP are never overwritten:
    a single correction part keyed `SR5.UserInput` makes their totals agree
    with what the operator confirmed, so every earlier part stays visible. */
module Reconcile {
  import opened Wrappers
  import opened PartsList
  import opened Damage

  /** The key of the correction part. */
  const UserInputKey: string := "SR5.UserInput"

  /** Diff-based update of one modifiable value towards `confirmed`. */
  function ReconcileValue(m: ModifiableValue, confirmed: int): (r: ModifiableValue)
    ensures r.base == m.base
    // Totals already agree: nothing is touched, not even a stale `value`
    // (the total helper is assumed not to write `value` back).
    ensures CalcTotal(m) == confirmed ==> r == m
    // Otherwise the correction part holds the difference, `value` is recomputed ...
    ensures CalcTotal(m) != confirmed ==>
      Lookup(r.mod, UserInputKey) == Some(confirmed - CalcTotal(m)) && Consistent(r)
    // ... and every other part is kept.
    ensures forall n :: n != UserInputKey ==> Lookup(r.mod, n) == Lookup(m.mod, n)
    ensures Names(r.mod) <= Names(m.mod) + {UserInputKey}
    ensures Consistent(m) ==> Consistent(r)
    // Without an earlier correction part, exactly one part is appended at the
    // end and the new total is the confirmed one.
    ensures UserInputKey !in Names(m.mod) && CalcTotal(m) != confirmed ==>
      r.mod == m.mod + [Part(UserInputKey, confirmed - CalcTotal(m))]
    ensures UserInputKey !in Names(m.mod) ==> CalcTotal(r) == confirmed
    // With an earlier correction part u, the upsert replaces it and the new
    // total falls short of the confirmed one by exactly u.
    ensures Lookup(m.mod, UserInputKey).Some? && CalcTotal(m) != confirmed ==>
      CalcTotal(r) == confirmed - Lookup(m.mod, UserInputKey).value
    // That earlier part is replaced in place; all other parts keep their order.
    ensures Lookup(m.mod, UserInputKey).Some? && CalcTotal(m) != confirmed ==>
      && |r.mod| == |m.mod|
      && r.mod[FirstIndex(m.mod, UserInputKey)] == Part(UserInputKey, confirmed - CalcTotal(m))
      && forall j :: 0 <= j < |m.mod| && j != FirstIndex(m.mod, UserInputKey) ==> r.mod[j] == m.mod[j]
  {
    var total := CalcTotal(m);
    if total != confirmed then
      LookupFindsNames(m.mod, UserInputKey);
      var mod' := AddUniquePart(m.mod, UserInputKey, confirmed - total);
      ModifiableValue(m.base, m.base + Total(mod'), mod')
    else
      m
  }

  /** The operator's confirmed totals merged into `initial`; the source works
      on a duplicate, so `initial` itself is never changed. */
  function UpdateDamageWithUserData(initial: DamageData, incomingDamage: int, damageType: DamageType, ap: int, element: string): (r: DamageData)
    // Amount and AP each follow the diff rule, each in its own list.
    ensures r.amount == ReconcileValue(initial.amount, incomingDamage)
    ensures r.ap == ReconcileValue(initial.ap, ap)
    // Type changes are absolute, decided against the initial base type only.
    ensures damageType != initial.damageType.base ==> r.damageType == TypeField(damageType, damageType)
    ensures damageType == initial.damageType.base ==> r.damageType == initial.damageType
    // The element is overwritten only by a non-empty element.
    ensures element != "" ==> r.element == initial.element.(value := element)
    ensures element == "" ==> r.element == initial.element
    ensures r.source == initial.source
  {
    var amount := ReconcileValue(initial.amount, incomingDamage);
    var damageType := if initial.damageType.base != damageType then TypeField(damageType, damageType) else initial.damageType;
    var ap := ReconcileValue(initial.ap, ap);
    var element := if element != "" then initial.element.(value := element) else initial.element;
    initial.(amount := amount, damageType := damageType, ap := ap, element := element)
  }
}

/** Properties of reconciliation that relate several calls. */
module ReconcileFacts {
  import opened PartsList
  import opened Damage
  import opened Reconcile

  /** Reconciling again with the same confirmed values adds nothing, as long
      as neither list held a correction part to begin with. */
  lemma UpdateIdempotent(d: DamageData, incomingDamage: int, damageType: DamageType, ap: int, element: string)
    requires UserInputKey !in Names(d.amount.mod) && UserInputKey !in Names(d.ap.mod)
    ensures var once := UpdateDamageWithUserData(d, incomingDamage, damageType, ap, element);
      UpdateDamageWithUserData(once, incomingDamage, damageType, ap, element) == once
  {
  }

  /** With no earlier correction part, a consistent record ends consistent and
      shows exactly the confirmed amount and AP. */
  lemma UpdateReachesConfirmed(d: DamageData, incomingDamage: int, damageType: DamageType, ap: int, element: string)
    requires Consistent(d.amount) && Consistent(d.ap)
    requires UserInputKey !in Names(d.amount.mod) && UserInputKey !in Names(d.ap.mod)
    ensures var r := UpdateDamageWithUserData(d, incomingDamage, damageType, ap, element);
      Consistent(r.amount) && Consistent(r.ap) && r.amount.value == incomingDamage && r.ap.value == ap
  {
  }

  /** The amount depends only on the confirmed damage and the AP only on the
      confirmed AP: the two correction parts never mix. */
  lemma AmountAndApIndependent(d: DamageData, incoming1: int, incoming2: int, type1: DamageType, type2: DamageType,
                               ap1: int, ap2: int, element1: string, element2: string)
    ensures UpdateDamageWithUserData(d, incoming1, type1, ap1, element1).amount
         == UpdateDamageWithUserData(d, incoming1, type2, ap2, element2).amount
    ensures UpdateDamageWithUserData(d, incoming1, type1, ap1, element1).ap
         == UpdateDamageWithUserData(d, incoming2, type2, ap1, element2).ap
  {
  }

  /** With an earlier correction part u != 0 the totals do not settle: the
      second reconciliation puts u back and restores the original total, which
      differs from the confirmed one. */
  lemma ReconcileOscillates(m: ModifiableValue, confirmed: int)
    requires Lookup(m.mod, UserInputKey).Some? && Lookup(m.mod, UserInputKey).value != 0
    requires CalcTotal(m) != confirmed
    ensures var once := ReconcileValue(m, confirmed);
      CalcTotal(once) != confirmed && CalcTotal(ReconcileValue(once, confirmed)) == CalcTotal(m)
  {
  }

  /** A record whose amount totals 5 confirmed at 8 gains a correction part
      of 3 and then totals 8. */
  lemma DiffExample()
    ensures var m := ModifiableValue(5, 5, []);
      var r := ReconcileValue(m, 8);
      r.mod == [Part(UserInputKey, 3)] && r.value == 8
  {
  }

  /** An amount of base 5 that already carries a correction part of 2 (total 7),
      confirmed at 8, ends at 6, not 8. */
  lemma PriorCorrectionExample()
    ensures var m := ModifiableValue(5, 7, [Part(UserInputKey, 2)]);
      var r := ReconcileValue(m, 8);
      r.mod == [Part(UserInputKey, 1)] && r.value == 6
  {
    var m := ModifiableValue(5, 7, [Part(UserInputKey, 2)]);
    assert Total(m.mod) == 2;
    assert AddUniquePart(m.mod, UserInputKey, 1) == [Part(UserInputKey, 1)];
  }
}

=== FILE: soak_flow.dfy ===
/** The control skeleton of SoakFlow.runSoakTest and promptDamageData. The
    interactive steps become inputs: the operator's answer to the damage
    prompt (None when the dialog was cancelled) and the soak roll's net hits
    (None when the roll was aborted). The soak rules are collaborators passed
    in as functions. */
module SoakFlow {
  import opened Wrappers
  import opened PartsList
  import opened Damage
  import opened World
  import opened Reconcile
  import opened Knockdown

  /** What the operator confirms in the damage dialog. */
  datatype UserInput = UserInput(incomingDamage: int, damageType: DamageType, ap: int, element: string)

  /** What the caller may already know about the incoming damage. */
  datatype SoakRollOptions = SoakRollOptions(damage: Option<DamageData>)

  /** The soak rules the flow relies on; their catalogue is not part of this
      model and no behaviour is assumed of them. `applyAllSoakParts` returns
      the list a phase uses; the source's rules extend the given one. */
  datatype SoakRules = SoakRules(
    applyAllSoakParts: (ModList, Actor, DamageData) -> ModList,
    modifyDamageType: (DamageData, Actor) -> DamageData,
    reduceDamage: (Actor, DamageData, int) -> DamageData)

  /** The localized title of the soak test. */
  const SoakTestTitle: string := "Soak Test"

  /** The published chat message: incoming and soaked damage, and the
      knockdown flag. */
  datatype ChatMessage = ChatMessage(
    title: string, hits: int, actor: Actor,
    incoming: DamageData, modified: DamageData, knockedDown: bool)

  /** How a soak test ends. `preview` is the list shown in the dialog and
      `finalParts` the list the roll is made with. */
  datatype SoakOutcome =
    | Canceled(preview: ModList)
    | RollAborted(preview: ModList, finalParts: ModList)
    | Published(preview: ModList, finalParts: ModList, message: ChatMessage)
  {
    /** What runSoakTest returns: the roll's hits, or nothing. */
    function Result(): Option<int> {
      if Published? then Some(message.hits) else None
    }
  }

  /** The damage the flow starts from: the caller's, else the default. */
  function InitialDamage(options: SoakRollOptions): (d: DamageData)
    ensures options.damage.Some? ==> d == options.damage.value
    // Without one, every field is the default record's.
    ensures options.damage.None? ==>
      && d.amount == ModifiableValue(0, 0, []) && d.ap == ModifiableValue(0, 0, [])
      && d.damageType == TypeField(Physical, Physical) && d.element == ElementField("", "")
    ensures options.damage.None? ==> CalcTotal(d.amount) == 0 && CalcTotal(d.ap) == 0 && d.source.None?
  {
    if options.damage.Some? then options.damage.value else DefaultDamageData()
  }

  /** The dialog step: no damage when the dialog was cancelled, else the
      initial damage reconciled with the operator's answer. */
  function PromptDamageData(options: SoakRollOptions, answer: Option<UserInput>): (r: Option<DamageData>)
    ensures r.None? <==> answer.None?
    ensures r.Some? ==> r.value.source == InitialDamage(options).source
    // The whole answer reaches the record: amount, type, AP and element.
    ensures r.Some? ==> r.value == UpdateDamageWithUserData(InitialDamage(options), answer.value.incomingDamage,
                                                            answer.value.damageType, answer.value.ap, answer.value.element)
    ensures r.Some? && answer.value.damageType != InitialDamage(options).damageType.base ==>
      r.value.damageType == TypeField(answer.value.damageType, answer.value.damageType)
    ensures r.Some? && answer.value.element != "" ==> r.value.element.value == answer.value.element
    ensures r.Some? ==> r.value.amount == ReconcileValue(InitialDamage(options).amount, answer.value.incomingDamage)
    ensures r.Some? ==> r.value.ap == ReconcileValue(InitialDamage(options).ap, answer.value.ap)
  {
    if answer.None? then None
    else
      var input := answer.value;
      Some(UpdateDamageWithUserData(InitialDamage(options), input.incomingDamage, input.damageType, input.ap, input.element))
  }

  /** The whole soak test. */
  function RunSoakTest(rules: SoakRules, actor: Actor, registry: Registry, options: SoakRollOptions,
                       partsProps: ModList, answer: Option<UserInput>, rollHits: Option<int>): (r: SoakOutcome)
    // The preview is built from the caller's parts and the initial damage.
    ensures r.preview == rules.applyAllSoakParts(partsProps, actor, InitialDamage(options))
    // A cancelled dialog stops the flow before anything else happens.
    ensures r.Canceled? <==> answer.None?
    // Only a completed roll is published, and only it yields a result.
    ensures r.Published? <==> answer.Some? && rollHits.Some?
    ensures r.Result() == (if answer.Some? then rollHits else None)
    // The final list starts again from the caller's parts, with the
    // reconciled damage; nothing of the preview carries over.
    ensures !r.Canceled? ==>
      r.finalParts == rules.applyAllSoakParts(partsProps, actor, PromptDamageData(options, answer).value)
    ensures r.Published? ==>
      && r.message.title == SoakTestTitle
      && r.message.actor == actor
      && r.message.incoming == PromptDamageData(options, answer).value
      && r.message.modified == rules.reduceDamage(actor, rules.modifyDamageType(r.message.incoming, actor), r.message.hits)
      && (r.message.knockedDown <==> KnocksDown(r.message.modified, actor, registry))
  {
    var preview := rules.applyAllSoakParts(partsProps, actor, InitialDamage(options));
    var damageData := PromptDamageData(options, answer);
    if damageData.None? then Canceled(preview)
    else
      var finalParts := rules.applyAllSoakParts(partsProps, actor, damageData.value);
      if rollHits.None? then RollAborted(preview, finalParts)
      else
        var hits := rollHits.value;
        var incoming := damageData.value;
        var modified := rules.reduceDamage(actor, rules.modifyDamageType(incoming, actor), hits);
        var knockedDown := KnocksDown(modified, actor, registry);
        Published(preview, finalParts, ChatMessage(SoakTestTitle, hits, actor, incoming, modified, knockedDown))
  }
}

/** Properties of the soak flow that relate it to its collaborators. */
module SoakFlowFacts {
  import opened Wrappers
  import opened PartsList
  import opened Damage
  import opened World
  import opened SoakFlow

  /** When the soak rules only append their parts, the preview and the final
      list each consist of the caller's parts followed by the rule parts for
      that phase's damage: a type or amount change made in the dialog cannot
      leave preview parts behind in the list the roll uses. */
  lemma PhasesStartFromCallerParts(rules: SoakRules, actor: Actor, registry: Registry, options: SoakRollOptions,
                                   partsProps: ModList, input: UserInput, rollHits: Option<int>,
                                   soakParts: (Actor, DamageData) -> ModList)
    requires forall list, damage :: rules.applyAllSoakParts(list, actor, damage) == list + soakParts(actor, damage)
    ensures var r := RunSoakTest(rules, actor, registry, options, partsProps, Some(input), rollHits);
      var reconciled := PromptDamageData(options, Some(input)).value;
      && r.preview == partsProps + soakParts(actor, InitialDamage(options))
      && r.finalParts == partsProps + soakParts(actor, reconciled)
  {
  }
}

=== FILE: world.dfy ===
/** The part of the game world the knockdown rule looks into: actors, the
    items they own, and the modifications mounted on those items. The source
    reads these from global game state; here they are an explicit registry. */
module World {
  import opened Wrappers

  /** A modification of an item; `equipped` is false when the modification has
      no technology data at all. */
  datatype ItemMod = ItemMod(name: string, equipped: bool)

  datatype Item = Item(id: string, mods: seq<ItemMod>)

  datatype Actor = Actor(id: string, physicalLimit: int, items: seq<Item>)

  type Registry = seq<Actor>

  /** The index of the first element satisfying `matches`, if any. */
  function FindIndex<T>(s: seq<T>, matches: T -> bool): (r: Option<nat>)
    ensures r.None? <==> forall i :: 0 <= i < |s| ==> !matches(s[i])
    ensures r.Some? ==> r.value < |s| && matches(s[r.value]) && IsFirstMatch(s, matches, r.value)
  {
    if |s| == 0 then None
    else if matches(s[0]) then Some(0)
    else
      match FindIndex(s[1..], matches)
      case None => None
      case Some(i) => Some(i + 1)
  }

  /** The first element satisfying `matches`, as a JavaScript array `find`. */
  function Find<T>(s: seq<T>, matches: T -> bool): (r: Option<T>)
    ensures r.None? <==> forall i :: 0 <= i < |s| ==> !matches(s[i])
    ensures r.Some? ==> exists i :: 0 <= i < |s| && s[i] == r.value && matches(s[i]) && IsFirstMatch(s, matches, i)
  {
    match FindIndex(s, matches)
    case None => None
    case Some(i) => Some(s[i])
  }

  /** No element before index `i` satisfies `matches`. */
  predicate IsFirstMatch<T>(s: seq<T>, matches: T -> bool, i: int)
    requires 0 <= i <= |s|
  {
    forall j :: 0 <= j < i ==> !matches(s[j])
  }
}

=== FILE: wrappers.dfy ===
/** Optional values: the model's stand-in for a result the source leaves
    `undefined`, such as a cancelled prompt, an aborted roll or a lookup that
    found nothing. */
module Wrappers {

  datatype Option<+T> = None | Some(value: T) {

    /** The held value, with `fallback` standing in for a missing one. */
    function ValueOr(fallback: T): T {
      if Some? then value else fallback
    }
  }
}
